=== FILE: README.md ===
# Raspberry Pi hardware layer: decision logic and GPIO handle lifecycle

This project models the decision logic of a small Raspberry Pi hardware layer.
The layer drives an ultrasonic rangefinder, a thermal sensor, a colour sensor, a
button, a buzzer and an SSD1306 OLED panel. It comes in two variants.

- `hw_layer.py` is built on gpiozero and CircuitPython. Module `HwLayer`
  (`hw_layer.dfy`) models it as pure functions:
  - the priority-ordered colour labeller;
  - the three-way absorption classifier;
  - the envelope filter and the mean behind `measure_distance`;
  - the status-panel layout;
  - the fixed values each adapter returns when its device is missing or raises.
- `hw_layer_chatgpt.py` is built on lgpio. Its state is the global `gpio_handle`
  and what the driver holds open for it.
  - Module `GpioModel` (`gpio_model.dfy`) writes each operation as a function
    from the old state and the driver's answers to the new state. The
    properties of the handle state machine are proved there.
  - Module `GpioLayer` (`gpio_layer.dfy`) holds the class `Gpio`. Its methods
    run the same operations step by step, with loops where the source polls.
    Each state-changing method is proved to produce exactly the state its
    `GpioModel` function gives.
  - Module `OledLayer` (`oled.dfy`) holds the panel object and
    `oled_display_message`.
- `wrappers.dfy` holds the `Option` type; `drawing.dfy` (module `Drawing`) holds the positioned text item both panel models draw.

Every driver call is an input to the model:

- whether a device object exists;
- whether a close, claim or write raised;
- the handle that `gpiochip_open` returned, or `None` when it raised;
- the levels returned by successive `gpio_read` calls (`Sample`);
- the values returned by successive `time.time()` calls (`clock`).

The model also records, in the `log` field, every driver call that opens,
closes, claims or writes. This lets the contracts state call order, for example
"exactly one recovery open" or "BUZZER is written 1 and then 0".

Behaviour kept as the code has it:

- The echo-wait loops have no timeout.
- The adapters return sentinel values (`(0, 0)`, `None`, `"N/A"`, `"Error"`,
  25.0/25.0) rather than tagged results.
- The recovery path of `init_gpio` reopens the chip but claims no pins.
- When `init_gpio` closes the previous handle and the next open then raises,
  the recovery cleanup closes that same handle a second time
  (`InitClosesPriorHandleTwice`).

## Model

| member | source | states |
|---|---|---|
| `HwLayer.GetColorName` | hw_layer.py:61-69 | White iff all channels > 200; Black iff all < 30; otherwise Red/Green/Blue iff that channel is strictly brightest; Yellow iff r == g > 100 and b < 50; Unknown iff no rule applies |
| `HwLayer.WhiteAndBlackExclusive` | hw_layer.py:63-64 | the White and Black conditions can never both hold |
| `HwLayer.ColorExamples` | hw_layer.py:61-69 | (255,255,255) White, (10,10,10) Black, (250,10,10) Red, (120,130,20) Green rather than Yellow, (120,120,20) Yellow, (100,100,100) Unknown |
| `HwLayer.AnalyzeAbsorption` | hw_layer.py:109-112 | High iff sigma > 1.2, Medium iff 0.5 < sigma <= 1.2, Low iff sigma <= 0.5 (boundaries fall into the lower bucket) |
| `HwLayer.AbsorptionMonotone` | hw_layer.py:109-112 | the label never decreases as sigma grows |
| `HwLayer.MetresToCentimetres` | hw_layer.py:102 | each reading in metres becomes the reading times 100, in order |
| `HwLayer.KeepInEnvelope` | hw_layer.py:103 | every kept reading satisfies 2 < r < 400; each value in the envelope is kept as often as it occurs; every other value is dropped, not clamped |
| `HwLayer.KeepInEnvelopeAppend` | hw_layer.py:103 | the filter keeps the readings in their order: filtering a concatenation gives the filtered parts concatenated |
| `HwLayer.MeanBetweenMinAndMax` | hw_layer.py:105 | the mean of a non-empty sample lies between its minimum and maximum |
| `HwLayer.MeasureDistance` | hw_layer.py:98-107 | (0, 0) iff the sensor is missing or no reading survives; otherwise the average is the mean of the survivors and, before rounding, lies strictly inside (2, 400) and between their min and max; spread 0 for one survivor, stdev of the survivors otherwise |
| `HwLayer.ReadButton` | hw_layer.py:93-96 | returns False exactly for a present, pressed button; a missing button gives True |
| `HwLayer.ReadColor` | hw_layer.py:83-87 | "N/A" iff no sensor, "Error" iff the read raised, otherwise the label of the triple; the result is one of nine fixed texts |
| `HwLayer.ReadTemperature` | hw_layer.py:71-81 | 25.0/25.0 without a sensor, 0/0 on OSError/IOError, the reading otherwise; any other exception escapes |
| `HwLayer.TemperatureFallbacksAmbiguous` | hw_layer.py:79-81 | a genuine reading of 25.0/25.0 or 0/0 cannot be told apart from the fallbacks |
| `HwLayer.UpdatePhysicalOled` | hw_layer.py:114-123 | with a panel, the distance, shape and material lines are drawn at x 0, y 0/12/24; a render error is reported, not raised; without a panel the same three lines are printed |
| `GpioModel.CleanupSpec` | hw_layer_chatgpt.py:84-93 | no handle: nothing changes; the close succeeds: the handle becomes None and the chip is released; the close raises: only the attempt is logged; validity is kept |
| `GpioModel.CleanupIdempotent` | hw_layer_chatgpt.py:84-93 | after a cleanup that released the handle, a second cleanup changes nothing |
| `GpioModel.InitSpec` | hw_layer_chatgpt.py:58-81 | the handle ends None or naming an open chip; on success it is the opened handle with the four pins claimed; on failure it is the recovery open's result, with no pins claimed |
| `GpioModel.ClaimAllEffect` | hw_layer_chatgpt.py:66-69 | the claims stop at the first that raises; each successful output claim (TRIG, BUZZER) drives its pin to lgpio's default level 0; all four succeeding claim TRIG and BUZZER as outputs, ECHO and BUTTON as inputs |
| `GpioModel.InitSuccessPath` | hw_layer_chatgpt.py:62-69 | success logs close-prior, open, four claims; TRIG and BUZZER end at level 0 and no other level changes; the prior handle is released, so it no longer appears among open chips unless reissued |
| `GpioModel.TryInitOpens` | hw_layer_chatgpt.py:61-69 | the try block only appends to the log, with one open unless closing the prior handle raised |
| `GpioModel.InitRecoveryCleanup` | hw_layer_chatgpt.py:72-81 | on failure the log continues with cleanup_gpio's close of the handle the try block left, then the single reopen; that chip is released when the close succeeds, and the reopen adds only its own chip, with no pins claimed; the levels are those the try block left, so an output claim that succeeded before a later call raised has driven its pin to 0 |
| `GpioModel.InitRecoveryPath` | hw_layer_chatgpt.py:72-81 | on failure, exactly one recovery open follows the cleanup, as the last call; the log gains one or two opens in all |
| `GpioModel.InitClosesPriorHandleTwice` | hw_layer_chatgpt.py:62-65 | prior close succeeds and the open raises: the log is close h, open, close h, open |
| `GpioModel.PermanentFailureDegrades` | hw_layer_chatgpt.py:79-81 | if both opens fail the handle is None, measure_distance gives None and beep changes nothing |
| `GpioModel.PulseSpec` | hw_layer_chatgpt.py:155-167 | no handle: no-op; otherwise the pin is written 1 then 0 (stopping at a write that raises); the handle, the chips and every other pin are untouched |
| `GpioModel.BeepLeavesBuzzer` | hw_layer_chatgpt.py:162-167 | after a beep the buzzer is at 0; if the second write raises it stays at 1 |
| `GpioModel.FirstOther` | hw_layer_chatgpt.py:116-121 | the index where a `while read == v` loop stops: every earlier sample is v, the one there is not |
| `GpioModel.EchoDistance` | hw_layer_chatgpt.py:115-128 | a distance is returned iff no echo read raised and (stop - start) * 34300 / 2 is strictly inside (2, 400); it then equals that value, before rounding |
| `GpioModel.DistanceSpec` | hw_layer_chatgpt.py:105-131 | None without a handle or when a trigger write raises; any distance returned is, before rounding, strictly inside (2, 400) |
| `GpioLayer.Gpio.constructor` | hw_layer_chatgpt.py:53 | the handle starts as None with nothing open |
| `GpioLayer.Gpio.CleanupGpio` | hw_layer_chatgpt.py:84-93 | the new state is CleanupSpec of the old |
| `GpioLayer.Gpio.InitGpio` | hw_layer_chatgpt.py:58-81 | the new state is InitSpec of the old, so the handle is None or names an open chip |
| `GpioLayer.Gpio.MeasureDistance` | hw_layer_chatgpt.py:101-131 | the echo loops refresh start and stop from the clock; the result is DistanceSpec; the state changes only by the TRIG pulse |
| `GpioLayer.Gpio.WaitForButtonPress` | hw_layer_chatgpt.py:137-152 | True iff there is a handle and the first BUTTON read that is not 1 returned a level; False without a handle or on a read error |
| `GpioLayer.Gpio.Beep` | hw_layer_chatgpt.py:155-167 | the new state is PulseSpec on BUZZER of the old |
| `OledLayer.DrawLines` | hw_layer_chatgpt.py:244-245 | min(4, n) items, item i being line i at x 0, y 15 * i, in input order |
| `OledLayer.OledDisplayMessage` | hw_layer_chatgpt.py:230-250 | no panel: no-op; all driver calls succeed: the panel shows the first four lines 15 px apart; a failure part-way gives the whole panel state: untouched, buffer cleared, screen blank with the buffer empty, or screen blank with the drawn lines loaded |

## Left out

- `HwLayer.MeasureDistance`: the average and spread are not rounded to two decimals (`round(x, 2)`). The bounds it states (strictly inside (2, 400), between the smallest and largest survivor) hold before rounding only: a single survivor of 399.999 makes the program return an average of exactly 400.0. `statistics.stdev` is the parameter `stdev`, not defined here; only the single-survivor spread of 0 is fixed.
- `HwLayer.ReadTemperature`: the values are not rounded to one decimal. The 768-pixel MLX90640 frame average is not computed; the reading carries the averaged object temperature.
- `GpioModel.EchoDistance`, `GpioModel.DistanceSpec` and `GpioLayer.Gpio.MeasureDistance`: the distance is not rounded to two decimals. The bound strictly inside (2, 400) holds before rounding only: a raw 399.999 or 2.001 passes the check, and the program then returns exactly 400.0 or 2.0.
- `GpioLayer.Gpio.MeasureDistance` and `GpioLayer.Gpio.WaitForButtonPress`: each requires that the sampled levels end the wait. The source has no timeout and blocks forever otherwise; a wait that never ends is not modelled.
- Sleeps (the 10 µs trigger pulse, the 0.5 s recovery delay, the 50 ms button poll, the beep duration) have no observable effect on the modelled state and are left out.
- Device construction and cleanup at import time are left out: hw_layer.py:16-58, `init_gpio()` at hw_layer_chatgpt.py:256, and the `atexit` registration. Whether a device exists is a parameter instead.
- `buzzer_beep` (hw_layer.py:89-91) is left out. It hands the beep to the gpiozero driver when a buzzer exists, and has no logic of its own.
- `read_temperature`, `read_color` and `init_oled` in hw_layer_chatgpt.py are left out. Each is driver plumbing that returns `None` (or `None, None`) on any exception.
- `print` logging and the `__main__` demo block are left out.
- `OledLayer.OledDisplayMessage`: creating the PIL image, the drawing context and the font is assumed not to raise. Only the four panel calls (clear, display, image, display) can fail.
- The bitmap a text line becomes is not modelled; a drawn line is its position and its text.

=== FILE: drawing.dfy ===
/** The item both status-panel models draw: a line of text at a pixel position. */
module Drawing {

  /** One text item drawn at pixel position (x, y). */
  datatype Text = Text(x: int, y: int, text: string)
}

=== FILE: gpio_layer.dfy ===
/**
 * The lgpio hardware layer (hw_layer_chatgpt.py) as the program runs it:
 * one object holding the global `gpio_handle` together with what the driver
 * holds on its behalf, and methods that update it call by call. Each method
 * is proved to do exactly what the matching function of GpioModel says;
 * the properties of the layer are proved there, about those functions.
 */
module GpioLayer {

  import opened Wrappers
  import opened GpioModel

  class Gpio {
    /** The module global `gpio_handle`. */
    var handle: Option<nat>
    /** Chip handles the driver holds open, with the pins claimed on each. */
    var chips: map<nat, map<nat, Direction>>
    /** Level each output pin was last driven to, by a write or (to 0) by an output claim. */
    var levels: map<nat, int>
    /** Every driver call that opens, closes, claims or writes, oldest first. */
    var log: seq<Call>

    function State(): GpioState
      reads this
    {
      GpioState(handle, chips, levels, log)
    }

    /** At import time the handle is `None` and the driver holds nothing. */
    constructor ()
      ensures State() == GpioState(None, map[], map[], [])
    {
      handle := None;
      chips := map[];
      levels := map[];
      log := [];
    }

    /* -------------------------------------------------------------- */
    /*  lgpio calls                                                    */
    /* -------------------------------------------------------------- */

    method ChipClose(h: nat, ok: bool) returns (raised: bool)
      modifies this
      ensures State() == CloseChip(old(State()), h, ok) && raised == !ok
    {
      log := log + [Close(h)];
      if ok {
        chips := chips - {h};
      }
      raised := !ok;
    }

    method ChipOpen(answer: Option<nat>) returns (raised: bool)
      modifies this
      ensures State() == OpenChip(old(State()), answer) && raised == answer.None?
    {
      log := log + [Open];
      if answer.Some? {
        chips := chips[answer.value := map[]];
      }
      raised := answer.None?;
    }

    method ClaimLine(h: nat, pin: nat, dir: Direction, ok: bool) returns (raised: bool)
      requires h in chips
      modifies this
      ensures State() == ClaimPin(old(State()), h, pin, dir, ok) && raised == !ok
    {
      log := log + [Claim(pin, dir)];
      if ok {
        var claimed: map<nat, Direction> := chips[h][pin := dir];
        chips := chips[h := claimed];
        if dir == Output {
          levels := levels[pin := 0];
        }
      }
      raised := !ok;
    }

    method WriteLine(pin: nat, level: int, ok: bool) returns (raised: bool)
      modifies this
      ensures State() == WritePin(old(State()), pin, level, ok) && raised == !ok
    {
      log := log + [Write(pin, level)];
      if ok {
        levels := levels[pin := level];
      }
      raised := !ok;
    }

    /* -------------------------------------------------------------- */
    /*  Handle lifecycle                                               */
    /* -------------------------------------------------------------- */

    /** cleanup_gpio; a close that raises is caught. */
    method CleanupGpio(closeOk: bool)
      modifies this
      ensures State() == CleanupSpec(old(State()), closeOk)
    {
      if handle.Some? {
        var raised := ChipClose(handle.value, closeOk);
        if !raised {
          handle := None;
        }
      }
    }

    /** init_gpio, with the driver's answers in `d`. */
    method InitGpio(d: InitDriver)
      modifies this
      ensures State() == InitSpec(old(State()), d)
      ensures Valid(State())
    {
      var raised := false;
      if handle.Some? {
        raised := ChipClose(handle.value, d.priorClose);
      }
      if !raised {
        raised := ChipOpen(d.open);
        if !raised {
          var h := d.open.value;
          handle := d.open;
          raised := ClaimLine(h, TRIG, Output, d.claims > 0);
          if !raised {
            raised := ClaimLine(h, ECHO, Input, d.claims > 1);
          }
          if !raised {
            raised := ClaimLine(h, BUZZER, Output, d.claims > 2);
          }
          if !raised {
            raised := ClaimLine(h, BUTTON, Input, d.claims > 3);
          }
        }
      }
      if raised {
        CleanupGpio(d.cleanupClose);
        var reopenRaised := ChipOpen(d.reopen);
        handle := d.reopen;
      }
    }

    /* -------------------------------------------------------------- */
    /*  Adapters                                                       */
    /* -------------------------------------------------------------- */

    /**
     * measure_distance: pulse TRIG, wait for ECHO to rise and then to fall,
     * refreshing `start` and `stop` from the clock on every read, and
     * convert the elapsed time. `echo` holds the successive reads of ECHO,
     * `clock` the successive values of `time.time()`.
     */
    method MeasureDistance(writesOk: nat, echo: seq<Sample>, clock: seq<real>) returns (distance: Option<real>)
      requires handle.Some? && writesOk >= 2 ==> EchoInputs(echo, clock)
      modifies this
      ensures State() == PulseSpec(old(State()), TRIG, writesOk)
      ensures distance == DistanceSpec(old(handle).Some?, writesOk, echo, clock)
    {
      if handle.None? {
        return None;
      }
      var raised := WriteLine(TRIG, 1, writesOk >= 1);
      if raised {
        return None;
      }
      raised := WriteLine(TRIG, 0, writesOk >= 2);
      if raised {
        return None;
      }

      var e := 0;
      var start := clock[0];
      while echo[e] == Level(0)
        invariant 0 <= e <= Rise(echo)
        invariant start == clock[e]
        decreases Rise(echo) - e
      {
        e := e + 1;
        start := clock[e];
      }
      if echo[e] == ReadError {
        return None;
      }

      e := e + 1;
      var stop := clock[e];
      while echo[e] == Level(1)
        invariant Rise(echo) < e <= Fall(echo)
        invariant stop == clock[e]
        decreases Fall(echo) - e
      {
        e := e + 1;
        stop := clock[e];
      }
      if echo[e] == ReadError {
        return None;
      }

      var cm := EchoCentimetres(stop - start);
      if cm <= 2.0 || cm >= 400.0 {
        return None;
      }
      return Some(cm);
    }

    /**
     * wait_for_button_press: poll BUTTON (active low) while it reads 1.
     * The result is true exactly when there is a handle and the first read
     * that is not 1 returned a level rather than raising.
     */
    method WaitForButtonPress(samples: seq<Sample>) returns (pressed: bool)
      requires handle.Some? ==> FirstOther(samples, 0, 1) < |samples|
      ensures pressed <==>
                handle.Some? &&
                exists k :: 0 <= k < |samples| && samples[k].Level? && samples[k].level != 1 &&
                            forall j :: 0 <= j < k ==> samples[j] == Level(1)
    {
      if handle.None? {
        return false;
      }
      var i := 0;
      while samples[i] == Level(1)
        invariant 0 <= i <= FirstOther(samples, 0, 1)
        decreases FirstOther(samples, 0, 1) - i
      {
        i := i + 1;
      }
      pressed := samples[i] != ReadError;
      if pressed {
        assert samples[i].Level? && samples[i].level != 1;
      } else {
        forall k | 0 <= k < |samples| && samples[k].Level? && samples[k].level != 1
          ensures exists j :: 0 <= j < k && samples[j] != Level(1)
        {
          assert i < k;
        }
      }
    }

    /** beep: BUZZER to 1, then back to 0. */
    method Beep(writesOk: nat)
      modifies this
      ensures State() == PulseSpec(old(State()), BUZZER, writesOk)
    {
      if handle.None? {
        return;
      }
      var raised := WriteLine(BUZZER, 1, writesOk >= 1);
      if raised {
        return;
      }
      raised := WriteLine(BUZZER, 0, writesOk >= 2);
    }
  }
}

=== FILE: gpio_model.dfy ===
/**
 * The lgpio hardware layer (hw_layer_chatgpt.py) as values: the module's
 * global `gpio_handle`, what the lgpio driver holds open on its behalf, and
 * the log of driver calls that change anything. Each operation of the layer
 * is a function from the old state and the driver's outcomes to the new
 * state; the class in GpioLayer runs the same operations step by step and
 * is proved equal to these functions.
 *
 * Driver outcomes are inputs: whether a close, claim or write raised, the
 * handle `gpiochip_open` returned (or `None` when it raised), the levels
 * successive `gpio_read` calls return, and successive `time.time()` values.
 */
module GpioModel {

  import opened Wrappers

  /* ---------------------------------------------------------------- */
  /*  Pins, driver calls, state                                        */
  /* ---------------------------------------------------------------- */

  const TRIG: nat := 23
  const ECHO: nat := 24
  const BUZZER: nat := 18
  const BUTTON: nat := 17

  datatype Direction = Input | Output

  /** A driver call that opens, closes, claims or drives something. */
  datatype Call = Open | Close(handle: nat) | Claim(pin: nat, dir: Direction) | Write(pin: nat, level: int)

  /** What one `gpio_read` gives: a level, or an exception. */
  datatype Sample = Level(level: int) | ReadError

  /**
   * `handle` is the global `gpio_handle`; `chips` maps every chip handle the
   * driver holds open to the pins claimed on it; `levels` is the level each
   * output pin was last driven to, by a successful write or, at 0, by a
   * successful output claim; `log` lists every call above,
   * oldest first.
   */
  datatype GpioState = GpioState(
    handle: Option<nat>,
    chips: map<nat, map<nat, Direction>>,
    levels: map<nat, int>,
    log: seq<Call>)

  /** The global handle, when set, names a chip the driver holds open. */
  predicate Valid(s: GpioState)
  {
    s.handle.Some? ==> s.handle.value in s.chips
  }

  /** The handle as a set: empty for `None`. */
  function HandleSet(h: Option<nat>): set<nat>
  {
    if h.Some? then {h.value} else {}
  }

  /* ---------------------------------------------------------------- */
  /*  Single driver calls                                              */
  /* ---------------------------------------------------------------- */

  /** lgpio.gpiochip_close(h); when it raises the driver keeps the chip open. */
  function CloseChip(s: GpioState, h: nat, ok: bool): GpioState
  {
    s.(chips := if ok then s.chips - {h} else s.chips, log := s.log + [Close(h)])
  }

  /** lgpio.gpiochip_open(0), returning `answer` (`None`: it raised). */
  function OpenChip(s: GpioState, answer: Option<nat>): GpioState
  {
    var logged := s.(log := s.log + [Open]);
    if answer.Some? then logged.(chips := logged.chips[answer.value := map[]]) else logged
  }

  /**
   * lgpio.gpio_claim_output / gpio_claim_input on chip `h`. An output claim
   * made without a level argument drives the pin to lgpio's default of 0.
   */
  function ClaimPin(s: GpioState, h: nat, pin: nat, dir: Direction, ok: bool): GpioState
    requires h in s.chips
  {
    var claimed: map<nat, Direction> := s.chips[h][pin := dir];
    s.(chips := if ok then s.chips[h := claimed] else s.chips,
       levels := if ok && dir == Output then s.levels[pin := 0] else s.levels,
       log := s.log + [Claim(pin, dir)])
  }

  /** lgpio.gpio_write(h, pin, level). */
  function WritePin(s: GpioState, pin: nat, level: int, ok: bool): GpioState
  {
    s.(levels := if ok then s.levels[pin := level] else s.levels, log := s.log + [Write(pin, level)])
  }

  /* ---------------------------------------------------------------- */
  /*  cleanup_gpio                                                     */
  /* ---------------------------------------------------------------- */

  /**
   * cleanup_gpio: with no handle nothing happens at all; otherwise the chip
   * is closed, and only a close that succeeds clears the handle (a close
   * that raises is caught and leaves everything but the log as it was).
   */
  function CleanupSpec(s: GpioState, closeOk: bool): (r: GpioState)
    ensures s.handle.None? ==> r == s
    ensures s.handle.Some? && closeOk ==>
              r.handle.None? && r.chips == s.chips - {s.handle.value} &&
              r.levels == s.levels && r.log == s.log + [Close(s.handle.value)]
    ensures s.handle.Some? && !closeOk ==> r == s.(log := s.log + [Close(s.handle.value)])
    ensures Valid(s) ==> Valid(r)
  {
    if s.handle.None? then s
    else
      var closed := CloseChip(s, s.handle.value, closeOk);
      if closeOk then closed.(handle := None) else closed
  }

  /** Once a cleanup has released the handle, any further cleanup is a no-op. */
  lemma CleanupIdempotent(s: GpioState, first: bool, second: bool)
    requires s.handle.None? || first
    ensures CleanupSpec(s, first).handle.None?
    ensures CleanupSpec(CleanupSpec(s, first), second) == CleanupSpec(s, first)
  {
  }

  /* ---------------------------------------------------------------- */
  /*  init_gpio                                                        */
  /* ---------------------------------------------------------------- */

  /**
   * The driver's answers during one init_gpio: whether closing the previous
   * handle succeeds, what the first open returns, how many of the four
   * claims succeed before one raises, whether the close inside the recovery
   * cleanup succeeds, and what the single recovery open returns.
   */
  datatype InitDriver = InitDriver(
    priorClose: bool,
    open: Option<nat>,
    claims: nat,
    cleanupClose: bool,
    reopen: Option<nat>)

  /** The four claims init_gpio makes, in order, and the pins they leave claimed. */
  const ClaimCalls: seq<Call> :=
    [Claim(TRIG, Output), Claim(ECHO, Input), Claim(BUZZER, Output), Claim(BUTTON, Input)]

  const PinClaims: map<nat, Direction> :=
    map[TRIG := Output, ECHO := Input, BUZZER := Output, BUTTON := Input]

  /**
   * The output levels once the first `ok` of the four claims have succeeded:
   * TRIG (the first claim) and BUZZER (the third) are driven to 0.
   */
  function ClaimedLevels(levels: map<nat, int>, ok: nat): map<nat, int>
  {
    var afterTrig := if ok > 0 then levels[TRIG := 0] else levels;
    if ok > 2 then afterTrig[BUZZER := 0] else afterTrig
  }

  /** The close of the previous handle that init_gpio starts with, if there is one. */
  function PriorClose(s: GpioState): seq<Call>
  {
    if s.handle.Some? then [Close(s.handle.value)] else []
  }

  /** The four claims on chip `h`, of which the first `ok` succeed; true when one raised. */
  function ClaimAll(s: GpioState, h: nat, ok: nat): (GpioState, bool)
    requires h in s.chips
  {
    var s1 := ClaimPin(s, h, TRIG, Output, ok > 0);
    if ok < 1 then (s1, true) else
    var s2 := ClaimPin(s1, h, ECHO, Input, ok > 1);
    if ok < 2 then (s2, true) else
    var s3 := ClaimPin(s2, h, BUZZER, Output, ok > 2);
    if ok < 3 then (s3, true) else
    (ClaimPin(s3, h, BUTTON, Input, ok > 3), ok < 4)
  }

  /**
   * The `try` block of init_gpio: close the previous handle (without
   * clearing the global), open the chip, claim the four pins. The flag is
   * true when some call raised.
   */
  function TryInit(s: GpioState, d: InitDriver): (GpioState, bool)
  {
    if s.handle.Some? && !d.priorClose then (CloseChip(s, s.handle.value, false), true)
    else
      var closed := if s.handle.Some? then CloseChip(s, s.handle.value, true) else s;
      var afterOpen := OpenChip(closed, d.open);
      if d.open.None? then (afterOpen, true)
      else ClaimAll(afterOpen.(handle := d.open), d.open.value, d.claims)
  }

  /** No call in the `try` block of init_gpio raises. */
  predicate InitSucceeds(s: GpioState, d: InitDriver)
  {
    (s.handle.None? || d.priorClose) && d.open.Some? && d.claims >= 4
  }

  /** The `try` block gets as far as its gpiochip_open call. */
  predicate ReachesOpen(s: GpioState, d: InitDriver)
  {
    s.handle.None? || d.priorClose
  }

  /**
   * init_gpio. When the `try` block raises, cleanup_gpio runs and exactly
   * one more gpiochip_open is made: its handle, or `None` when it raises,
   * becomes the global handle, and no pin is claimed on it. Whatever the
   * driver does, the resulting handle is `None` or a chip held open.
   */
  function InitSpec(s: GpioState, d: InitDriver): (r: GpioState)
    ensures Valid(r)
    ensures InitSucceeds(s, d) ==> r.handle == d.open && r.chips[d.open.value] == PinClaims
    ensures !InitSucceeds(s, d) ==>
              r.handle == d.reopen && (d.reopen.Some? ==> r.chips[d.reopen.value] == map[])
  {
    var (t, raised) := TryInit(s, d);
    if !raised then t
    else
      var cleaned := CleanupSpec(t, d.cleanupClose);
      OpenChip(cleaned, d.reopen).(handle := d.reopen)
  }

  /**
   * What the four claims do: log the calls made, drive each output pin
   * claimed to 0, and on success claim every pin.
   */
  lemma ClaimAllEffect(s: GpioState, h: nat, ok: nat)
    requires h in s.chips
    ensures var (t, raised) := ClaimAll(s, h, ok);
      && raised == (ok < 4)
      && t.handle == s.handle && t.levels == ClaimedLevels(s.levels, ok)
      && t.log == s.log + ClaimCalls[..if ok < 4 then ok + 1 else 4]
      && (ok >= 4 ==> t.chips == s.chips[h := s.chips[h] + PinClaims])
  {
    var s1 := ClaimPin(s, h, TRIG, Output, ok > 0);
    assert s1.levels == if ok > 0 then s.levels[TRIG := 0] else s.levels;
    if ok >= 1 {
      var s2 := ClaimPin(s1, h, ECHO, Input, ok > 1);
      assert s2.levels == s1.levels;
      if ok >= 2 {
        var s3 := ClaimPin(s2, h, BUZZER, Output, ok > 2);
        assert s3.levels == if ok > 2 then s1.levels[BUZZER := 0] else s1.levels;
        if ok >= 3 {
          var t := ClaimPin(s3, h, BUTTON, Input, ok > 3);
          assert t.levels == s3.levels;
          if ok >= 4 {
            assert t.chips[h] == s.chips[h] + PinClaims;
          }
        }
      }
    }
  }

  /**
   * The success path of init_gpio: the previous handle is closed first, the
   * chip opened, and TRIG and BUZZER claimed as outputs (which drives both
   * to 0), ECHO and BUTTON as inputs; the previous handle is no longer held (unless the driver handed
   * the same number out again), so nothing leaks.
   */
  lemma InitSuccessPath(s: GpioState, d: InitDriver)
    requires InitSucceeds(s, d)
    ensures var r := InitSpec(s, d);
      && r.handle == d.open
      && r.chips == (s.chips - HandleSet(s.handle))[d.open.value := PinClaims]
      && r.levels == s.levels[TRIG := 0][BUZZER := 0]
      && r.log == s.log + PriorClose(s) + [Open] + ClaimCalls
      && (s.handle.Some? && s.handle.value in r.chips ==> s.handle == d.open)
  {
  }

  /** How many gpiochip_open calls a log holds. */
  function Opens(calls: seq<Call>): nat
  {
    if calls == [] then 0 else (if calls[0] == Open then 1 else 0) + Opens(calls[1..])
  }

  lemma {:induction false} OpensAppend(a: seq<Call>, b: seq<Call>)
    ensures Opens(a + b) == Opens(a) + Opens(b)
  {
    if a == [] {
      assert a + b == b;
    } else {
      assert (a + b)[1..] == a[1..] + b;
      OpensAppend(a[1..], b);
    }
  }

  /** A log with no open in it counts none. */
  lemma {:induction false} NoOpens(calls: seq<Call>)
    requires forall i :: 0 <= i < |calls| ==> calls[i] != Open
    ensures Opens(calls) == 0
  {
    if calls != [] {
      NoOpens(calls[1..]);
    }
  }

  /**
   * The try block of init_gpio writes no pin; only the output claims made
   * after a successful open drive their pins to 0.
   */
  lemma TryInitLevels(s: GpioState, d: InitDriver)
    ensures TryInit(s, d).0.levels ==
              if ReachesOpen(s, d) && d.open.Some? then ClaimedLevels(s.levels, d.claims) else s.levels
  {
    if ReachesOpen(s, d) && d.open.Some? {
      var closed := if s.handle.Some? then CloseChip(s, s.handle.value, true) else s;
      var claiming := OpenChip(closed, d.open).(handle := d.open);
      ClaimAllEffect(claiming, d.open.value, d.claims);
    }
  }

  /** The log of TryInit extends the old one by at most one open. */
  lemma TryInitOpens(s: GpioState, d: InitDriver)
    ensures s.log <= TryInit(s, d).0.log
    ensures Opens(TryInit(s, d).0.log) == Opens(s.log) + (if ReachesOpen(s, d) then 1 else 0)
  {
    if !ReachesOpen(s, d) {
      assert TryInit(s, d).0.log == s.log + [Close(s.handle.value)];
      OpensAppend(s.log, [Close(s.handle.value)]);
      NoOpens([Close(s.handle.value)]);
    } else {
      var closed := if s.handle.Some? then CloseChip(s, s.handle.value, true) else s;
      assert closed.log == s.log + PriorClose(s);
      OpensAppend(s.log, PriorClose(s));
      NoOpens(PriorClose(s));
      var afterOpen := OpenChip(closed, d.open);
      assert afterOpen.log == closed.log + [Open];
      OpensAppend(closed.log, [Open]);
      assert Opens([Open]) == 1 by {
        assert [Open][1..] == [];
      }
      if d.open.None? {
        assert TryInit(s, d).0 == afterOpen;
      } else {
        var n := if d.claims < 4 then d.claims + 1 else 4;
        var claiming := afterOpen.(handle := d.open);
        assert TryInit(s, d) == ClaimAll(claiming, d.open.value, d.claims);
        ClaimAllEffect(claiming, d.open.value, d.claims);
        OpensAppend(afterOpen.log, ClaimCalls[..n]);
        assert forall i :: 0 <= i < n ==> ClaimCalls[..n][i].Claim?;
        NoOpens(ClaimCalls[..n]);
      }
    }
  }

  /**
   * The failure path of init_gpio, cleanup half: cleanup_gpio closes
   * whatever handle the `try` block left in the global (the fresh chip when
   * a claim raised), releasing that chip when the close succeeds; the
   * recovery open comes right after it and adds only its own chip. Pin
   * levels are those the try block left: an output claim that succeeded
   * before a later call raised has still driven its pin to 0.
   */
  lemma InitRecoveryCleanup(s: GpioState, d: InitDriver)
    requires !InitSucceeds(s, d)
    ensures var r := InitSpec(s, d);
      var t := TryInit(s, d).0;
      var released := if d.cleanupClose then t.chips - HandleSet(t.handle) else t.chips;
      && r.log == t.log + PriorClose(t) + [Open]
      && (d.reopen.None? ==> r.chips == released)
      && (d.reopen.Some? ==> r.chips == released[d.reopen.value := map[]])
      && r.levels == t.levels
      && r.levels == if ReachesOpen(s, d) && d.open.Some? then ClaimedLevels(s.levels, d.claims) else s.levels
  {
    var t := TryInit(s, d).0;
    TryInitLevels(s, d);
    var cleaned := CleanupSpec(t, d.cleanupClose);
    assert InitSpec(s, d) == OpenChip(cleaned, d.reopen).(handle := d.reopen);
  }

  /**
   * The failure path of init_gpio, reopen half: exactly one recovery open
   * follows the cleanup, as the last call. Counting the attempt inside the
   * `try` block (made unless closing the previous handle raised), the log
   * gains at most two opens.
   */
  lemma InitRecoveryPath(s: GpioState, d: InitDriver)
    requires !InitSucceeds(s, d)
    ensures var r := InitSpec(s, d);
      && s.log < r.log
      && r.log[|r.log| - 1] == Open
      && Opens(r.log) == Opens(s.log) + (if ReachesOpen(s, d) then 2 else 1)
  {
    var t := TryInit(s, d).0;
    TryInitOpens(s, d);
    var cleaned := CleanupSpec(t, d.cleanupClose);
    if t.handle.Some? {
      OpensAppend(t.log, [Close(t.handle.value)]);
    }
    OpensAppend(cleaned.log, [Open]);
  }

  /**
   * As written, init_gpio closes the previous handle without clearing the
   * global; when the following open raises, the recovery cleanup closes the
   * very same, already closed, handle a second time.
   */
  lemma InitClosesPriorHandleTwice(s: GpioState, d: InitDriver)
    requires s.handle.Some? && d.priorClose && d.open.None?
    ensures InitSpec(s, d).log ==
              s.log + [Close(s.handle.value), Open, Close(s.handle.value), Open]
  {
  }

  /* ---------------------------------------------------------------- */
  /*  Pulses: beep and the trigger of measure_distance                 */
  /* ---------------------------------------------------------------- */

  /**
   * Drive `pin` to 1 and then back to 0, as beep does with BUZZER and
   * measure_distance with TRIG; `writesOk` writes succeed before one raises.
   * Without a handle nothing happens. No pin other than `pin` is touched,
   * and the handle and the chips stay as they were.
   */
  function PulseSpec(s: GpioState, pin: nat, writesOk: nat): (r: GpioState)
    ensures r.handle == s.handle && r.chips == s.chips
    ensures s.handle.None? ==> r == s
    ensures s.handle.Some? && writesOk >= 2 ==>
              r.levels == s.levels[pin := 0] && r.log == s.log + [Write(pin, 1), Write(pin, 0)]
    ensures s.handle.Some? && writesOk == 1 ==>
              r.levels == s.levels[pin := 1] && r.log == s.log + [Write(pin, 1), Write(pin, 0)]
    ensures s.handle.Some? && writesOk == 0 ==>
              r.levels == s.levels && r.log == s.log + [Write(pin, 1)]
    ensures r.levels - {pin} == s.levels - {pin}
  {
    if s.handle.None? then s
    else
      var raised := WritePin(s, pin, 1, writesOk >= 1);
      if writesOk < 1 then raised else WritePin(raised, pin, 0, writesOk >= 2)
  }

  /**
   * After a beep whose writes both succeed the buzzer is silent; if the
   * second write raises, the buzzer is left sounding.
   */
  lemma BeepLeavesBuzzer(s: GpioState, writesOk: nat)
    requires s.handle.Some? && writesOk >= 1
    ensures PulseSpec(s, BUZZER, writesOk).levels[BUZZER] == if writesOk >= 2 then 0 else 1
  {
  }

  /* ---------------------------------------------------------------- */
  /*  Polling loops                                                    */
  /* ---------------------------------------------------------------- */

  /**
   * The index of the first sample at or after `from` that is not
   * `Level(v)`, or `|s|` when there is none: where a loop
   * `while gpio_read(...) == v` started at `from` stops.
   */
  function FirstOther(s: seq<Sample>, from: nat, v: int): (k: nat)
    requires from <= |s|
    decreases |s| - from
    ensures from <= k <= |s|
    ensures forall j :: from <= j < k ==> s[j] == Level(v)
    ensures k < |s| ==> s[k] != Level(v)
  {
    if from == |s| || s[from] != Level(v) then from else FirstOther(s, from + 1, v)
  }

  /** The read that ends the wait for the echo to rise. */
  function Rise(echo: seq<Sample>): nat
  {
    FirstOther(echo, 0, 0)
  }

  /** The read that ends the wait for the echo to fall again. */
  function Fall(echo: seq<Sample>): nat
    requires Rise(echo) < |echo|
  {
    FirstOther(echo, Rise(echo) + 1, 1)
  }

  /**
   * Both echo loops end within the samples (by a level change or by a read
   * that raises), and there is a `time.time()` value for every read.
   */
  predicate EchoInputs(echo: seq<Sample>, clock: seq<real>)
  {
    && Rise(echo) < |echo|
    && (echo[Rise(echo)] == ReadError || Fall(echo) < |echo|)
    && |clock| >= |echo|
  }

  /** Round-trip echo time in seconds to distance in centimetres: sound at 343 m/s, halved. */
  function EchoCentimetres(elapsed: real): real
  {
    elapsed * 34300.0 / 2.0
  }

  /** A read inside one of the two echo loops raised. */
  predicate EchoReadFailed(echo: seq<Sample>)
    requires Rise(echo) < |echo|
    requires echo[Rise(echo)] == ReadError || Fall(echo) < |echo|
  {
    echo[Rise(echo)] == ReadError || echo[Fall(echo)] == ReadError
  }

  /**
   * The echo part of measure_distance: `start_time` is last refreshed at the
   * rising read and `stop_time` at the falling read, so the elapsed time is
   * the clock at the fall minus the clock at the rise. A distance is
   * returned only when no read raised and it lies strictly inside
   * (2, 400) cm; values at or beyond either bound give `None`. The distance
   * is the one before `round(distance, 2)`: the program can still return
   * exactly 2.0 or 400.0 once a value just inside a bound is rounded.
   */
  function EchoDistance(echo: seq<Sample>, clock: seq<real>): (d: Option<real>)
    requires EchoInputs(echo, clock)
    ensures d.Some? <==>
              !EchoReadFailed(echo) &&
              2.0 < EchoCentimetres(clock[Fall(echo)] - clock[Rise(echo)]) < 400.0
    ensures d.Some? ==>
              d.value == EchoCentimetres(clock[Fall(echo)] - clock[Rise(echo)]) &&
              2.0 < d.value < 400.0
  {
    var rise := Rise(echo);
    if echo[rise] == ReadError then None
    else
      var fall := Fall(echo);
      if echo[fall] == ReadError then None
      else
        var cm := EchoCentimetres(clock[fall] - clock[rise]);
        if cm <= 2.0 || cm >= 400.0 then None else Some(cm)
  }

  /**
   * measure_distance's result: `None` without a handle or when a trigger
   * write raises, the echo distance otherwise; its bounds are those of the
   * distance before rounding.
   */
  function DistanceSpec(open: bool, writesOk: nat, echo: seq<Sample>, clock: seq<real>): (d: Option<real>)
    requires open && writesOk >= 2 ==> EchoInputs(echo, clock)
    ensures !open || writesOk < 2 ==> d.None?
    ensures d.Some? ==> 2.0 < d.value < 400.0
  {
    if !open || writesOk < 2 then None else EchoDistance(echo, clock)
  }

  /**
   * When the first attempt and the single recovery both fail, the layer is
   * degraded, not broken: the handle is `None`, measure_distance returns
   * `None`, and beep changes nothing.
   */
  lemma PermanentFailureDegrades(s: GpioState, d: InitDriver, writesOk: nat, echo: seq<Sample>, clock: seq<real>)
    requires !InitSucceeds(s, d) && d.reopen.None?
    ensures var r := InitSpec(s, d);
      && r.handle.None?
      && DistanceSpec(r.handle.Some?, writesOk, echo, clock).None?
      && PulseSpec(r, BUZZER, writesOk) == r
  {
  }
}

=== FILE: hw_layer.dfy ===
/**
 * The decision logic of the gpiozero / CircuitPython hardware layer
 * (hw_layer.py): the colour labeller, the absorption classifier, the
 * envelope filter and mean behind `measure_distance`, the OLED text layout,
 * and the fixed values each adapter falls back to when its device is
 * missing or raises.
 *
 * Every driver call is an input here: a device object that is `None` or
 * present, a reading it returned, or the kind of exception it raised.
 */
module HwLayer {

  import opened Wrappers
  import opened Drawing

  /* ---------------------------------------------------------------- */
  /*  Device outcomes                                                  */
  /* ---------------------------------------------------------------- */

  /**
   * What one read of an optional device yields: the module-level device
   * object was `None`, the read raised an `OSError`/`IOError`, it raised
   * some other exception, or it returned a value.
   */
  datatype Probe<T> = Missing | OsError | OtherError | Reading(value: T)

  /** A Python call that either returns a value or lets an exception escape. */
  datatype Outcome<T> = Returns(value: T) | Raises

  /* ---------------------------------------------------------------- */
  /*  Colour labelling                                                 */
  /* ---------------------------------------------------------------- */

  /** The labels get_color_name can produce. */
  datatype ColorName = White | Black | Red | Green | Blue | Yellow | Unknown

  /** The text get_color_name returns for each label. */
  function Label(c: ColorName): string
  {
    match c
    case White => "White"
    case Black => "Black"
    case Red => "Red"
    case Green => "Green"
    case Blue => "Blue"
    case Yellow => "Yellow"
    case Unknown => "Unknown"
  }

  predicate NearWhite(r: int, g: int, b: int) { r > 200 && g > 200 && b > 200 }

  predicate NearBlack(r: int, g: int, b: int) { r < 30 && g < 30 && b < 30 }

  /** Channel `x` is strictly brighter than both other channels `y` and `z`. */
  predicate Dominates(x: int, y: int, z: int) { x > y && x > z }

  /** No channel is strictly brighter than both others: the maximum is shared. */
  predicate MaximumShared(r: int, g: int, b: int)
  {
    !Dominates(r, g, b) && !Dominates(g, r, b) && !Dominates(b, r, g)
  }

  /** Red and green equally bright above 100, with blue below 50. */
  predicate EvenYellow(r: int, g: int, b: int) { r == g && r > 100 && b < 50 }

  /**
   * get_color_name: a priority-ordered chain, first match wins. Because the
   * dominant-channel rules come before the yellow rule, yellow is produced
   * exactly when red and green are tied; and "Unknown" is left for the
   * inputs no rule claims.
   */
  function GetColorName(r: int, g: int, b: int): (c: ColorName)
    ensures c == White <==> NearWhite(r, g, b)
    ensures c == Black <==> NearBlack(r, g, b)
    ensures !NearWhite(r, g, b) && !NearBlack(r, g, b) ==>
              (c == Red <==> Dominates(r, g, b)) &&
              (c == Green <==> Dominates(g, r, b)) &&
              (c == Blue <==> Dominates(b, r, g))
    ensures c == Yellow <==> EvenYellow(r, g, b)
    ensures c == Unknown <==>
              !NearWhite(r, g, b) && !NearBlack(r, g, b) &&
              MaximumShared(r, g, b) && !EvenYellow(r, g, b)
  {
    if r > 200 && g > 200 && b > 200 then White
    else if r < 30 && g < 30 && b < 30 then Black
    else if r > g && r > b then Red
    else if g > r && g > b then Green
    else if b > r && b > g then Blue
    else if r > 100 && g > 100 && b < 50 then Yellow
    else Unknown
  }

  /** The white and black rules can never both apply, so their order is immaterial. */
  lemma WhiteAndBlackExclusive(r: int, g: int, b: int)
    ensures !(NearWhite(r, g, b) && NearBlack(r, g, b))
  {
  }

  /** Worked inputs: (120, 130, 20) is green, not yellow, because green dominates. */
  lemma ColorExamples()
    ensures GetColorName(255, 255, 255) == White
    ensures GetColorName(10, 10, 10) == Black
    ensures GetColorName(250, 10, 10) == Red
    ensures GetColorName(120, 130, 20) == Green
    ensures GetColorName(120, 120, 20) == Yellow
    ensures GetColorName(100, 100, 100) == Unknown
  {
  }

  /* ---------------------------------------------------------------- */
  /*  Absorption                                                       */
  /* ---------------------------------------------------------------- */

  datatype Absorption = Low | Medium | High

  /** Position of a label on the scale Low < Medium < High. */
  function Rank(a: Absorption): nat
  {
    match a
    case Low => 0
    case Medium => 1
    case High => 2
  }

  /**
   * analyze_absorption: strict thresholds, so a boundary value falls into
   * the lower bucket (1.2 is Medium, 0.5 is Low).
   */
  function AnalyzeAbsorption(sigma: real): (a: Absorption)
    ensures a == High <==> sigma > 1.2
    ensures a == Medium <==> 0.5 < sigma <= 1.2
    ensures a == Low <==> sigma <= 0.5
  {
    if sigma > 1.2 then High
    else if sigma > 0.5 then Medium
    else Low
  }

  /** A larger dispersion never yields a lower absorption label. */
  lemma AbsorptionMonotone(s: real, t: real)
    requires s <= t
    ensures Rank(AnalyzeAbsorption(s)) <= Rank(AnalyzeAbsorption(t))
  {
  }

  /* ---------------------------------------------------------------- */
  /*  Filtered distance                                                */
  /* ---------------------------------------------------------------- */

  /** The physical envelope of the rangefinder, in centimetres, both ends excluded. */
  predicate InEnvelope(x: real) { 2.0 < x < 400.0 }

  /** The sensor's readings in metres, scaled to centimetres in the same order. */
  function MetresToCentimetres(metres: seq<real>): (cm: seq<real>)
    ensures |cm| == |metres|
    ensures forall i :: 0 <= i < |metres| ==> cm[i] == metres[i] * 100.0
  {
    seq(|metres|, i requires 0 <= i < |metres| => metres[i] * 100.0)
  }

  /**
   * The comprehension `[r for r in readings if 2 < r < 400]`: readings
   * inside the envelope are kept with their multiplicity and order, every
   * other reading is dropped (never clamped).
   */
  function KeepInEnvelope(rs: seq<real>): (kept: seq<real>)
    ensures |kept| <= |rs|
    ensures forall i :: 0 <= i < |kept| ==> InEnvelope(kept[i])
    ensures forall x :: multiset(kept)[x] == if InEnvelope(x) then multiset(rs)[x] else 0
  {
    if rs == [] then []
    else
      assert rs == [rs[0]] + rs[1..];
      (if InEnvelope(rs[0]) then [rs[0]] else []) + KeepInEnvelope(rs[1..])
  }

  lemma ConcatAssociative<T>(x: seq<T>, y: seq<T>, z: seq<T>)
    ensures x + (y + z) == (x + y) + z
  {
  }

  /**
   * The comprehension keeps the order of the readings: filtering a
   * concatenation is concatenating the filtered parts.
   */
  lemma {:induction false} KeepInEnvelopeAppend(a: seq<real>, b: seq<real>)
    ensures KeepInEnvelope(a + b) == KeepInEnvelope(a) + KeepInEnvelope(b)
  {
    if a == [] {
      assert a + b == b;
      assert KeepInEnvelope(a) == [];
    } else {
      var head := if InEnvelope(a[0]) then [a[0]] else [];
      var ab := a + b;
      assert ab != [] && ab[0] == a[0] && ab[1..] == a[1..] + b;
      var rest := KeepInEnvelope(a[1..] + b);
      assert KeepInEnvelope(ab) == head + rest;
      KeepInEnvelopeAppend(a[1..], b);
      var keptA, keptB := KeepInEnvelope(a[1..]), KeepInEnvelope(b);
      assert rest == keptA + keptB;
      assert KeepInEnvelope(a) == head + keptA;
      ConcatAssociative(head, keptA, keptB);
    }
  }

  function Sum(s: seq<real>): real
  {
    if s == [] then 0.0 else s[0] + Sum(s[1..])
  }

  /** statistics.mean: the arithmetic mean of a non-empty sample. */
  function Mean(s: seq<real>): real
    requires |s| > 0
  {
    Sum(s) / |s| as real
  }

  /** The smallest element of a non-empty sample. */
  function Min(s: seq<real>): (m: real)
    requires |s| > 0
    ensures m in s
    ensures forall i :: 0 <= i < |s| ==> m <= s[i]
  {
    if |s| == 1 then s[0]
    else
      var rest := Min(s[1..]);
      if s[0] <= rest then s[0] else rest
  }

  /** The largest element of a non-empty sample. */
  function Max(s: seq<real>): (m: real)
    requires |s| > 0
    ensures m in s
    ensures forall i :: 0 <= i < |s| ==> s[i] <= m
  {
    if |s| == 1 then s[0]
    else
      var rest := Max(s[1..]);
      if s[0] >= rest then s[0] else rest
  }

  /** A sum of n terms, each between lo and hi, lies between n*lo and n*hi. */
  lemma {:induction false} SumBounded(s: seq<real>, lo: real, hi: real)
    requires forall i :: 0 <= i < |s| ==> lo <= s[i] <= hi
    ensures |s| as real * lo <= Sum(s) <= |s| as real * hi
  {
    if s != [] {
      SumBounded(s[1..], lo, hi);
      assert |s| as real * lo == (|s| - 1) as real * lo + lo;
      assert |s| as real * hi == (|s| - 1) as real * hi + hi;
    }
  }

  /** Dividing by a positive count keeps a value between the scaled bounds. */
  lemma QuotientBounded(total: real, n: real, lo: real, hi: real)
    requires n > 0.0
    requires n * lo <= total <= n * hi
    ensures lo <= total / n <= hi
  {
  }

  /** A mean is bounded by any common bounds of the values averaged. */
  lemma MeanBounded(s: seq<real>, lo: real, hi: real)
    requires |s| > 0
    requires forall i :: 0 <= i < |s| ==> lo <= s[i] <= hi
    ensures lo <= Mean(s) <= hi
  {
    SumBounded(s, lo, hi);
    QuotientBounded(Sum(s), |s| as real, lo, hi);
  }

  /** The mean of a non-empty sample lies between its minimum and its maximum. */
  lemma MeanBetweenMinAndMax(s: seq<real>)
    requires |s| > 0
    ensures Min(s) <= Mean(s) <= Max(s)
  {
    MeanBounded(s, Min(s), Max(s));
  }

  /** The `(avg, std_dev)` pair measure_distance returns; `(0, 0)` on every failure. */
  datatype Measurement = Measurement(avg: real, stdDev: real)

  /**
   * measure_distance: `metres` holds the sensor's `distance` value at each
   * of the `samples` reads, `stdev` stands for statistics.stdev. A missing
   * sensor and a sample with no reading inside the envelope both give
   * `(0, 0)`; otherwise the average lies strictly inside the envelope,
   * between the smallest and largest surviving reading, so a zero average
   * always means failure. These bounds are on the average before
   * `round(avg, 2)`: a rounded average can land on 2.0 or 400.0, or just
   * outside the range of the survivors.
   */
  function MeasureDistance(sensor: bool, metres: seq<real>, stdev: seq<real> -> real): (m: Measurement)
    ensures var kept := KeepInEnvelope(MetresToCentimetres(metres));
      && (!sensor || kept == [] ==> m == Measurement(0.0, 0.0))
      && (sensor && kept != [] ==>
            InEnvelope(m.avg) && Min(kept) <= m.avg <= Max(kept) && m.avg == Mean(kept))
      && (m.avg == 0.0 <==> !sensor || kept == [])
      && (sensor && |kept| == 1 ==> m == Measurement(kept[0], 0.0))
      && (sensor && |kept| > 1 ==> m.stdDev == stdev(kept))
  {
    if !sensor then Measurement(0.0, 0.0)
    else
      var kept := KeepInEnvelope(MetresToCentimetres(metres));
      if kept == [] then Measurement(0.0, 0.0)
      else
        MeanBetweenMinAndMax(kept);
        assert Mean(kept) > 2.0 by {
          assert Min(kept) in kept;
        }
        Measurement(Mean(kept), if |kept| > 1 then stdev(kept) else 0.0)
  }

  /* ---------------------------------------------------------------- */
  /*  Adapter fallbacks                                                */
  /* ---------------------------------------------------------------- */

  /**
   * read_button: `button` is `None` when no Button object exists, otherwise
   * its `is_pressed` value. The result is `False` only for a present,
   * pressed button; a missing button reads as not pressed.
   */
  function ReadButton(button: Option<bool>): (released: bool)
    ensures !released <==> button == Some(true)
  {
    match button
    case None => true
    case Some(pressed) => !pressed
  }

  /** An RGB triple as the colour sensor's `color_rgb_bytes` delivers it. */
  datatype Rgb = Rgb(r: int, g: int, b: int)

  /**
   * read_color's `color_name` field: "N/A" without a sensor, "Error" when
   * the read raises anything, otherwise the label of the triple. The two
   * fallback texts never collide with a colour label.
   */
  function ReadColor(sensor: Probe<Rgb>): (name: string)
    ensures name == "N/A" <==> sensor.Missing?
    ensures name == "Error" <==> sensor.OsError? || sensor.OtherError?
    ensures sensor.Reading? ==>
              name == Label(GetColorName(sensor.value.r, sensor.value.g, sensor.value.b))
    ensures name in {"White", "Black", "Red", "Green", "Blue", "Yellow", "Unknown", "N/A", "Error"}
  {
    match sensor
    case Missing => "N/A"
    case OsError => "Error"
    case OtherError => "Error"
    case Reading(c) => Label(GetColorName(c.r, c.g, c.b))
  }

  /** Ambient temperature and the average object temperature over the frame. */
  datatype Temperatures = Temperatures(ambient: real, object: real)

  /**
   * read_temperature: 25.0/25.0 without a sensor, 0/0 when the read raises
   * an OSError or IOError, the device's values otherwise; any other
   * exception is not caught and escapes to the caller.
   */
  function ReadTemperature(sensor: Probe<Temperatures>): (t: Outcome<Temperatures>)
    ensures sensor.Missing? ==> t == Returns(Temperatures(25.0, 25.0))
    ensures sensor.OsError? ==> t == Returns(Temperatures(0.0, 0.0))
    ensures t == Raises <==> sensor.OtherError?
    ensures sensor.Reading? ==> t == Returns(sensor.value)
  {
    match sensor
    case Missing => Returns(Temperatures(25.0, 25.0))
    case OsError => Returns(Temperatures(0.0, 0.0))
    case OtherError => Raises
    case Reading(v) => Returns(v)
  }

  /**
   * A caller cannot tell the fallbacks from genuine readings: a device that
   * really measures 25.0/25.0 or 0/0 returns the same value as a missing
   * sensor or a bus error.
   */
  lemma TemperatureFallbacksAmbiguous()
    ensures ReadTemperature(Reading(Temperatures(25.0, 25.0))) == ReadTemperature(Missing)
    ensures ReadTemperature(Reading(Temperatures(0.0, 0.0))) == ReadTemperature(OsError)
  {
  }

  /* ---------------------------------------------------------------- */
  /*  Status panel                                                     */
  /* ---------------------------------------------------------------- */

  /**
   * What update_physical_oled produces: the three lines drawn on the panel,
   * a render that raised (reported, not propagated), or the same three
   * lines written to the console when there is no panel.
   */
  datatype Panel = Drawn(items: seq<Text>) | RenderFailed | Simulated(lines: seq<string>)

  /**
   * update_physical_oled: with a panel, the distance, shape and material
   * lines go to x = 0 and y = 0, 12, 24; without one, the same three lines
   * are printed under a banner. `renderOk` is false when the canvas raised.
   */
  function UpdatePhysicalOled(panel: bool, renderOk: bool, distance: string, shape: string, material: string): (p: Panel)
    ensures panel && renderOk ==>
              p.Drawn? && |p.items| == 3 &&
              forall i :: 0 <= i < 3 ==> p.items[i].x == 0 && p.items[i].y == 12 * i
    ensures panel && !renderOk ==> p == RenderFailed
    ensures !panel ==>
              p == Simulated(["Dist: " + distance, "Shape: " + shape, "Mat: " + material])
    ensures p.Drawn? ==>
              [p.items[0].text, p.items[1].text, p.items[2].text] ==
              ["Dist: " + distance, "Shape: " + shape, "Mat: " + material]
  {
    if panel then
      if renderOk then
        Drawn([Text(0, 0, "Dist: " + distance),
               Text(0, 12, "Shape: " + shape),
               Text(0, 24, "Mat: " + material)])
      else RenderFailed
    else Simulated(["Dist: " + distance, "Shape: " + shape, "Mat: " + material])
  }
}

=== FILE: oled.dfy ===
/**
 * oled_display_message of the lgpio hardware layer (hw_layer_chatgpt.py):
 * at most four lines of text, 15 px apart, drawn onto a fresh image that is
 * then pushed to an SSD1306 panel. The panel is a small object whose frame
 * buffer and visible screen the driver calls update.
 */
module OledLayer {

  import opened Drawing

  /** At most this many lines are drawn. */
  const MaxLines: nat := 4

  /** Vertical distance between two drawn lines, in pixels. */
  const LineSpacing: nat := 15

  /** An SSD1306 panel as the Adafruit driver presents it. */
  class Oled {
    /** The driver's frame buffer. */
    var buffer: seq<Text>
    /** What the panel shows: the buffer as of the last `display()`. */
    var screen: seq<Text>

    constructor ()
      ensures buffer == [] && screen == []
    {
      buffer := [];
      screen := [];
    }

    /** disp.clear(): empty the frame buffer. */
    method Clear()
      modifies this
      ensures buffer == [] && screen == old(screen)
    {
      buffer := [];
    }

    /** disp.display(): show the frame buffer. */
    method Display()
      modifies this
      ensures screen == buffer && buffer == old(buffer)
    {
      screen := buffer;
    }

    /** disp.image(image): load an image into the frame buffer. */
    method Image(image: seq<Text>)
      modifies this
      ensures buffer == image && screen == old(screen)
    {
      buffer := image;
    }
  }

  /**
   * The drawing loop: line i of `lines[:4]` goes to x = 0, y = 15 * i, in
   * input order; lines past the fourth are not drawn.
   */
  method DrawLines(lines: seq<string>) returns (image: seq<Text>)
    ensures |image| == if |lines| < MaxLines then |lines| else MaxLines
    ensures forall i :: 0 <= i < |image| ==> image[i] == Text(0, i * LineSpacing, lines[i])
  {
    var first := if |lines| <= MaxLines then lines else lines[..MaxLines];
    image := [];
    for i := 0 to |first|
      invariant |image| == i
      invariant forall j :: 0 <= j < i ==> image[j] == Text(0, j * LineSpacing, first[j])
    {
      image := image + [Text(0, i * LineSpacing, first[i])];
    }
  }

  /**
   * oled_display_message: nothing happens without a panel. Otherwise the
   * panel is cleared and shown blank, the lines are drawn, and the image is
   * loaded and shown. `backendOk` driver calls (clear, display, image,
   * display) succeed before one raises; the exception is caught, and each
   * failure point leaves a definite buffer and screen.
   */
  method OledDisplayMessage(disp: Oled?, lines: seq<string>, backendOk: nat)
    modifies disp
    ensures disp != null && backendOk == 0 ==> disp.buffer == old(disp.buffer) && disp.screen == old(disp.screen)
    ensures disp != null && backendOk == 1 ==> disp.buffer == [] && disp.screen == old(disp.screen)
    ensures disp != null && backendOk == 2 ==> disp.buffer == [] && disp.screen == []
    ensures disp != null && backendOk == 3 ==>
              disp.screen == [] &&
              |disp.buffer| == (if |lines| < MaxLines then |lines| else MaxLines) &&
              forall i :: 0 <= i < |disp.buffer| ==>
                disp.buffer[i] == Text(0, i * LineSpacing, lines[i])
    ensures disp != null && backendOk >= 4 ==>
              disp.screen == disp.buffer &&
              |disp.screen| == (if |lines| < MaxLines then |lines| else MaxLines) &&
              forall i :: 0 <= i < |disp.screen| ==>
                disp.screen[i] == Text(0, i * LineSpacing, lines[i])
  {
    if disp == null {
      return;
    }
    if backendOk < 1 {
      return;
    }
    disp.Clear();
    if backendOk < 2 {
      return;
    }
    disp.Display();
    var image := DrawLines(lines);
    if backendOk < 3 {
      return;
    }
    disp.Image(image);
    if backendOk < 4 {
      return;
    }
    disp.Display();
  }
}

=== FILE: wrappers.dfy ===
/** Stock optional-value type shared by the modules of this project. */
module Wrappers {

  /** A value that may be absent: Python's `None` or a present value. */
  datatype Option<T> = None | Some(value: T)
}
